=== FILE: README.md ===
# Database comparison decisions of the Nomulus registry, in Dafny

The registry once kept its data in both Datastore and Cloud SQL. A pipeline
checked that the two copies matched: it loaded every entity from both
databases, grouped them by primary key, and decided what to report for each
key. This project models that decision, from `ValidateSqlUtils` in
`google.registry.beam.comparedb`, as pure functions, and proves properties
about it.

- **Group classification** is `CompareSqlEntity.ProcessElement`. A key can
  hold more than two entities, exactly one, or a pair. More than two is a
  duplicate report that carries the count. One entity is reported as
  "missing in one DB", unless it is prober data. A pair is skipped when both
  entities are prober data. Otherwise the pair is normalised and compared,
  with a line emitted only when the normalised field maps differ. Metric
  counters are replaced by the returned `Outcome`, which holds the counter key
  and the report. Poll-message classes share the counter key `PollMessage`.
- **Field-map normalisation** is `FieldValues.Normalize` and
  `FieldValues.NormalizeFields`. They model the `DiffableFieldNormalizer`
  rewrite of a field-value tree:
  - an empty collection becomes null;
  - a `street` list loses its null and `""` lines;
  - a child object (a `LinkedHashMap`) is normalised field by field.

  The first rule is applied before the second. As a result, normalising a
  non-empty street list made only of blank lines twice gives null, where one
  pass gives an empty list (`FieldValues.BlankStreetNotIdempotent`). Such a
  list also does not match an empty street list
  (`FieldValues.StreetListsMatchIff`). `FieldValues.NormalizeIdempotentIff`
  states when the modelled normaliser is idempotent. Its second pass also
  enters normalised child objects, which the source's second pass would not
  do (see "Left out").
- **Prober recognition** is `ProberRules.IsSpecialCaseProberEntity`. It checks
  for:
  - registrar ids starting with `prober-`;
  - the history reason "Deletion of prober data";
  - domain names starting with `prober-`;
  - ignored repo ids;
  - a repo-id suffix made of a cell from {IQ, LG, TL} and a type from
    {ANYT, ANYTES, CANARY};
  - in production only, registrars whose id starts with `prober-wj-`.

  The checks run in the order the source makes them. A Java null is
  `Wrappers.None`. The exceptions the source can throw are `Err` results: a
  null registrar id or domain name reaching `startsWith`, or a repo-id suffix
  shorter than two characters.

Modules: `Wrappers` (Option and Result), `FieldValues`, `Entities` (the closed
entity datatype), `ProberRules`, `ProberExamples`, `LogText` (the
duplicate-line text and reading its count back), and `CompareSqlEntity`.

## Model

| member | source | states |
|---|---|---|
| FieldValues.DropBlanks | core/src/main/java/google/registry/beam/comparedb/ValidateSqlUtils.java:237-240 | the filtered street list holds exactly the elements that are neither null nor "", and is unchanged when none is blank |
| FieldValues.DropBlanksAppend | core/src/main/java/google/registry/beam/comparedb/ValidateSqlUtils.java:238-239 | filtering distributes over concatenation, so kept street lines stay in their original order |
| FieldValues.Normalize | core/src/main/java/google/registry/beam/comparedb/ValidateSqlUtils.java:233-247 | the result is null exactly for null or an empty collection; a non-empty `street` list becomes exactly its non-blank lines in order; a non-empty list under any other key is unchanged; an empty child object is unchanged; a non-empty child object keeps its field names and each field is normalised under its own name; every value that is neither a list nor a child object nor an empty collection is returned unchanged |
| FieldValues.NormalizeFields | core/src/main/java/google/registry/beam/comparedb/ValidateSqlUtils.java:204-209 | the normalised map has the same keys and holds, under each key, the normaliser's result for that entry (so, for instance, a field becomes null exactly when it was null or an empty collection) |
| FieldValues.TopLevelLikeChild | core/src/main/java/google/registry/beam/comparedb/ValidateSqlUtils.java:204-209 | the top-level field map goes through the same transformer as the fields of a non-empty child object (the recursive call at line 244) |
| FieldValues.NormalizeFixpointIff | core/src/main/java/google/registry/beam/comparedb/ValidateSqlUtils.java:233-247 | the normaliser leaves a value unchanged exactly when it has no empty collection, no blank street line, and the same holds recursively inside child objects |
| FieldValues.NormalizeOnceIff | core/src/main/java/google/registry/beam/comparedb/ValidateSqlUtils.java:233-247 | one pass yields a fixed point exactly when no reachable street list consists only of blank lines |
| FieldValues.NormalizeIdempotentIff | core/src/main/java/google/registry/beam/comparedb/ValidateSqlUtils.java:234-240 | in the model, normalising twice equals normalising once exactly when no street list reachable through child objects consists only of blank lines |
| FieldValues.BlankStreetNotIdempotent | core/src/main/java/google/registry/beam/comparedb/ValidateSqlUtils.java:234-240 | a street list of "" and null becomes an empty list, and that empty list then becomes null, because the empty-collection rule runs first |
| FieldValues.StreetListsMatchIff | core/src/main/java/google/registry/beam/comparedb/ValidateSqlUtils.java:234-240 | two street lists normalise alike exactly when both are empty, or both are non-empty with the same non-blank lines in the same order |
| FieldValues.EmptyCollectionMatchesNull | core/src/main/java/google/registry/beam/comparedb/ValidateSqlUtils.java:234-236 | a field holding an empty collection and the same field holding null normalise to the same map, whatever the field name |
| FieldValues.NormalizeFieldsFixpointIff | core/src/main/java/google/registry/beam/comparedb/ValidateSqlUtils.java:204-209 | a field map is unchanged by normalisation exactly when every field is normalised |
| Entities.NormalizeEntity | core/src/main/java/google/registry/beam/comparedb/ValidateSqlUtils.java:250-258 | only EPP resources and history entries can fail normalisation; every other entity is left as it is |
| ProberRules.StartsWith | core/src/main/java/google/registry/beam/comparedb/ValidateSqlUtils.java:361 | throws exactly on a null string; otherwise true exactly when the string begins with the prefix |
| ProberRules.IndexOf | core/src/main/java/google/registry/beam/comparedb/ValidateSqlUtils.java:389 | -1 exactly when the character is absent; otherwise the position of its first occurrence |
| ProberRules.RepoIdSuffix | core/src/main/java/google/registry/beam/comparedb/ValidateSqlUtils.java:389 | the suffix is the whole id when it has no dash, and otherwise the text after the first dash |
| ProberRules.IsProberRepoId | core/src/main/java/google/registry/beam/comparedb/ValidateSqlUtils.java:389-392 | throws exactly when the suffix has fewer than two characters; a prober suffix has six to eight characters |
| ProberRules.ProberRepoIdIff | core/src/main/java/google/registry/beam/comparedb/ValidateSqlUtils.java:67-69 | a repo id is prober data exactly when its suffix is a prober cell followed by a prober type |
| ProberRules.HistorySpecialCase | core/src/main/java/google/registry/beam/comparedb/ValidateSqlUtils.java:376-406 | a domain history whose snapshot names a domain starting with `prober-` is prober data; so is one whose repo id is ignored, provided the name check does not throw; a contact or host history is prober data exactly when its repo id is non-null and ignored; only domain histories can throw, and only on a null name in a present snapshot or a too-short repo-id suffix; a null name in a present snapshot always throws; once the name check passes without deciding (no snapshot, or a name without `prober-`), a domain history with no repo id is not special, and one whose repo id is not ignored is decided by the repo-id rule, including its `substring` exception |
| ProberRules.IsSpecialCaseProberEntity | core/src/main/java/google/registry/beam/comparedb/ValidateSqlUtils.java:358-426 | throws only on an entity that is not well formed; a history entry with a registrar id throws only if it is a domain history; a registrar is special only in production; entities of other classes are never special |
| ProberRules.ProberRegistrarRule | core/src/main/java/google/registry/beam/comparedb/ValidateSqlUtils.java:359-416 | a resource, history entry, billing event or poll message whose registrar id starts with `prober-` is prober data; for the non-history kinds this is the whole rule, and a null id throws |
| ProberRules.HistoryEntryRule | core/src/main/java/google/registry/beam/comparedb/ValidateSqlUtils.java:365-375 | a history entry is prober data exactly when its registrar id is non-null and either starts with `prober-`, or its reason is "Deletion of prober data", or its resource-type check holds; a null registrar id throws first |
| ProberRules.RegistrarRule | core/src/main/java/google/registry/beam/comparedb/ValidateSqlUtils.java:418-424 | a registrar is special only in production, and there exactly when its id starts with `prober-wj-`; it throws only in production and only on a null id |
| ProberRules.ProberPrefixAloneNotEnoughForRegistrar | core/src/main/java/google/registry/beam/comparedb/ValidateSqlUtils.java:413-424 | `prober-ab` makes a poll message prober data but not a registrar, while `prober-wj-01` makes a production registrar special |
| ProberRules.DomainRepoIdRule | core/src/main/java/google/registry/beam/comparedb/ValidateSqlUtils.java:378-395 | a domain history whose earlier checks fail (registrar prefix, deletion reason, and a snapshot that is absent or names a domain without `prober-`) and whose repo id is not ignored is decided by the repo-id rule alone |
| ProberRules.WellFormedNeverThrows | core/src/main/java/google/registry/beam/comparedb/ValidateSqlUtils.java:358-426 | an entity whose checked string attributes are all non-null, and whose non-ignored domain repo id has a suffix of at least two characters, never makes the recognition throw |
| ProberExamples.ProberRepoIdExample | core/src/main/java/google/registry/beam/comparedb/ValidateSqlUtils.java:389-392 | `4F2-IQANYT` is prober data |
| ProberExamples.DashlessRepoIdExample | core/src/main/java/google/registry/beam/comparedb/ValidateSqlUtils.java:389 | `LGCANARY`, which has no dash, is read whole and is prober data |
| ProberExamples.FirstDashRepoIdExample | core/src/main/java/google/registry/beam/comparedb/ValidateSqlUtils.java:389-390 | in `1-2-IQANYT` only the text after the first dash counts, so it is not prober data |
| ProberExamples.UnknownCellRepoIdExample | core/src/main/java/google/registry/beam/comparedb/ValidateSqlUtils.java:67 | `4F2-Q9ANYT` is not prober data because Q9 is not a prober cell |
| ProberExamples.ShortRepoIdThrows | core/src/main/java/google/registry/beam/comparedb/ValidateSqlUtils.java:390 | a one-character suffix throws StringIndexOutOfBoundsException |
| LogText.Decimal | core/src/main/java/google/registry/beam/comparedb/ValidateSqlUtils.java:132 | the `%d` text is a non-empty run of digits that starts with 0 only for zero |
| LogText.DecimalRoundTrip | core/src/main/java/google/registry/beam/comparedb/ValidateSqlUtils.java:132 | the `%d` text of a count reads back as that count |
| LogText.DuplicateEntityLine | core/src/main/java/google/registry/beam/comparedb/ValidateSqlUtils.java:131-133 | the duplicate line starts with the key and ends with " entities." and a newline |
| LogText.DuplicateLineRoundTrip | core/src/main/java/google/registry/beam/comparedb/ValidateSqlUtils.java:131-133 | the entity count can be read back from the duplicate line, whatever the key |
| CompareSqlEntity.CounterKey | core/src/main/java/google/registry/beam/comparedb/ValidateSqlUtils.java:114-116 | every poll message uses the key `PollMessage`, and no other modelled class does |
| CompareSqlEntity.CounterOf | core/src/main/java/google/registry/beam/comparedb/ValidateSqlUtils.java:169-213 | a per-kind counter is incremented exactly when a line is emitted |
| CompareSqlEntity.BothProbers | core/src/main/java/google/registry/beam/comparedb/ValidateSqlUtils.java:188 | the pair is prober data exactly when both entities are; when the first entity is not prober data, the second is never examined; the pair throws exactly when the first recognition throws, or the first is prober data and the second throws |
| CompareSqlEntity.ComparePair | core/src/main/java/google/registry/beam/comparedb/ValidateSqlUtils.java:195-213 | a failed normalisation gives exactly a bad-entities report; otherwise a line is emitted exactly when the normalised maps differ, and it carries those maps |
| CompareSqlEntity.ProcessElement | core/src/main/java/google/registry/beam/comparedb/ValidateSqlUtils.java:158-214 | an empty group is exactly the verify failure; every outcome uses the counter key of the first entity |
| CompareSqlEntity.DuplicateGroupReported | core/src/main/java/google/registry/beam/comparedb/ValidateSqlUtils.java:169-175 | more than two entities give a duplicate report with the count; the count reads back from the line; the outcome is the same for any group of that size with the same first class, in any environment |
| CompareSqlEntity.SingleEntityOutcome | core/src/main/java/google/registry/beam/comparedb/ValidateSqlUtils.java:177-184 | one entity is ignored exactly when it is prober data, reported missing exactly when it is not, and fails exactly when the recognition throws |
| CompareSqlEntity.PairSkippedIffBothProbers | core/src/main/java/google/registry/beam/comparedb/ValidateSqlUtils.java:185-193 | a pair is skipped exactly when both entities are prober data, and the group fails exactly when the short-circuit recognition throws |
| CompareSqlEntity.PairComparedUnlessBothProbers | core/src/main/java/google/registry/beam/comparedb/ValidateSqlUtils.java:185-202 | a pair with at most one prober entity is normalised and compared |
| CompareSqlEntity.ComparedPairOutcome | core/src/main/java/google/registry/beam/comparedb/ValidateSqlUtils.java:195-213 | for a pair that is not skipped, a bad-entities report comes exactly from a failed normalisation, and otherwise a line is emitted exactly when the normalised maps differ |
| CompareSqlEntity.ComparePairSymmetric | core/src/main/java/google/registry/beam/comparedb/ValidateSqlUtils.java:204-213 | whether a compared pair emits a line, and whether it is bad, does not depend on the order of its two entities |
| CompareSqlEntity.EmptyCollectionVersusNullMatches | core/src/main/java/google/registry/beam/comparedb/ValidateSqlUtils.java:204-210 | two entities that differ only by an empty collection against a null in one field are not reported |
| CompareSqlEntity.WellFormedGroupNeverFails | core/src/main/java/google/registry/beam/comparedb/ValidateSqlUtils.java:163-193 | a non-empty group whose checked attributes are present always gets an outcome |
| CompareSqlEntity.CounterKeyIff | core/src/main/java/google/registry/beam/comparedb/ValidateSqlUtils.java:114-116 | two modelled entities share a counter key exactly when both are poll messages or both are of the same class |
| CompareSqlEntity.PollMessageCounterKeyExample | core/src/main/java/google/registry/beam/comparedb/ValidateSqlUtils.java:114-116 | both poll-message classes use `PollMessage`, while billing `OneTime` keeps its simple name, which it shares with poll-message `OneTime` |

## Left out

- Beam plumbing is not modelled: `DoFn`, `OutputReceiver`, `TupleTag` and `createSqlEntityTupleTag`. The same goes for the Metrics counters and the synchronised `ensureCounterExists`. The returned `Outcome` names the counter key and the report; the total counter is incremented for every non-empty group.
- A group that throws has no `Outcome`. Counter increments made before the exception are not modelled.
- `getMedianIdForHistoryTable` is not modelled: it runs a native SQL query through the transaction manager.
- `normalizeEppResource` and `normalizeHistoryEntry` mutate fields by reflection. They are modelled as an opaque step: an entity carries the field map after normalisation, or `None` when normalisation throws.
- `toDiffableFieldMap` is not part of this model: field maps are inputs.
- `DiffUtils.prettyPrintEntityDeepDiff` is not part of this model. The texts of `unEqualEntityLog`, `badEntitiesLog` and `unmatchedEntityLog` are not rendered: reports carry the key, the entities and the normalised maps. Only the duplicate line is rendered. A `BadEntities` report carries both entities as loaded. When the first normalisation succeeds, the source logs that entity after `normalizeEntity` has mutated it in place.
- `Transforms.IGNORED_DOMAINS`, `IGNORED_CONTACTS` and `IGNORED_HOSTS` are not part of this model; they are a parameter. `RegistryEnvironment.get()` is a global; it is also a parameter.
- FieldValues.Normalize: child objects are modelled with String field names only, so "has a String key" means "is non-empty". In the source, a `LinkedHashMap` with no String key is returned unchanged. One that mixes String and non-String keys is transformed, and throws when a non-String entry is read. `toDiffableFieldMap` produces neither.
- FieldValues.NormalizeIdempotentIff: the model represents a normalised child object as a child object again, so a second pass enters it. In the source, the first pass returns a `Maps.transformEntries` view, which is not a `LinkedHashMap`, and a second pass returns it unchanged. The comparison makes only one pass, so reports are unaffected. The iff describes the modelled second pass, and matches the source only for values that are not child objects.
- ProberRules.IsProberRepoId: lengths and positions count Unicode characters, while Java's `substring` and `indexOf` count UTF-16 code units. They differ only on ids with characters outside the Basic Multilingual Plane. Repo ids are ASCII.
- LogText.Decimal: renders ASCII digits. `String.format` uses the default locale, whose zero digit may differ.
- CompareSqlEntity.ComparePair: field values are compared structurally, so a child object never equals a plain map. Java's `Map.equals` ignores the map class. Numbers are compared by value, so Java's `Integer`/`Long` distinction is lost.
- The poll-message acknowledgement flow (`PollAckFlow`), the poll-message id converter and `TransferData` are not part of this model. The repository's tests exercise them, but their classes lie outside `ValidateSqlUtils`.
- `TmchCrl`, `SqlEntity` and `TransactionEntity` are persistence classes with no decision logic.

=== FILE: compare_entities.dfy ===
/** What the database comparison reports for the entities loaded under one
    primary key (`ValidateSqlUtils.CompareSqlEntity.processElement`). The
    metric counters and the output receiver are replaced by the returned
    `Outcome`: the counter family it names and the one report it emits, if
    any. */
module CompareSqlEntity {
  import opened Wrappers
  import opened FieldValues
  import opened Entities
  import opened ProberRules
  import LogText

  /** The shared counter key of every poll-message class. */
  const PollMessageCounterKey: string := "PollMessage"

  /** `getCounterKey(entity.getClass())`. */
  function CounterKey(e: Entity): (k: string)
    ensures e.PollMessage? ==> k == PollMessageCounterKey
    ensures !e.PollMessage? && !e.OtherEntity? ==> k != PollMessageCounterKey
  {
    if e.PollMessage? then PollMessageCounterKey else SimpleName(e)
  }

  /** The environment the comparison runs in. */
  datatype Context = Context(env: Environment, ignored: IgnoredResources)

  /** Why a group produced no outcome: an empty group fails the `verify`
      precondition; the prober recognition may throw. */
  datatype Failure = EmptyGroup | Thrown(exception: Exception)

  /** What a missing-in-one-database line shows: the key, or for a poll
      message the whole entity, since its key is not enough to find it. */
  datatype Detail = KeyOnly | WholeEntity(entity: Entity)

  /** The decision for one key. `IgnoredProberData` and `Matched` emit
      nothing; each other report is one output line. */
  datatype Report =
    | DuplicateEntities(key: string, count: nat)
    | MissingInOneDb(key: string, detail: Detail)
    | IgnoredProberData
    | BadEntities(key: string, first: Entity, second: Entity)
    | NotEqual(key: string, fields0: FieldMap, fields1: FieldMap)
    | Matched

  /** The counters kept per counter key, besides the total. */
  datatype CounterKind = DuplicateCounter | MissingCounter | BadEntityCounter | UnequalCounter

  /** The counter key (whose total is incremented) and the report. */
  datatype Outcome = Outcome(counterKey: string, report: Report)

  predicate EmitsOutput(r: Report) {
    !(r.IgnoredProberData? || r.Matched?)
  }

  /** The counter incremented for a report besides the total: every emitted
      line is counted, and nothing else is. */
  function CounterOf(r: Report): (c: Option<CounterKind>)
    ensures c.Some? <==> EmitsOutput(r)
  {
    match r
    case DuplicateEntities(_, _) => Some(DuplicateCounter)
    case MissingInOneDb(_, _) => Some(MissingCounter)
    case BadEntities(_, _, _) => Some(BadEntityCounter)
    case NotEqual(_, _, _) => Some(UnequalCounter)
    case IgnoredProberData => None
    case Matched => None
  }

  /** `unmatchedEntityLog`'s choice of what to show. */
  function UnmatchedDetail(e: Entity): Detail {
    if e.PollMessage? then WholeEntity(e) else KeyOnly
  }

  /** The prober recognition, with its exception as a group failure. */
  function Probe(e: Entity, ctx: Context): Result<bool, Failure> {
    match IsSpecialCaseProberEntity(e, ctx.env, ctx.ignored)
    case Ok(b) => Ok(b)
    case Err(x) => Err(Thrown(x))
  }

  /** `isSpecialCaseProberEntity(e0) && isSpecialCaseProberEntity(e1)`:
      `e1` is examined only when `e0` is prober data. */
  function BothProbers(e0: Entity, e1: Entity, ctx: Context): (r: Result<bool, Failure>)
    ensures r == Ok(true) <==> Probe(e0, ctx) == Ok(true) && Probe(e1, ctx) == Ok(true)
    ensures Probe(e0, ctx) == Ok(false) ==> r == Ok(false)
    ensures r.Err? <==> Probe(e0, ctx).Err? || (Probe(e0, ctx) == Ok(true) && Probe(e1, ctx).Err?)
  {
    var p0 :- Probe(e0, ctx);
    if !p0 then Ok(false) else Probe(e1, ctx)
  }

  /** Normalise both entities, then both field maps, and compare: a failed
      normalisation is a bad-entities report; otherwise a line is emitted
      exactly when the normalised field maps differ. */
  function ComparePair(key: string, e0: Entity, e1: Entity): (r: Report)
    ensures r.BadEntities? <==> NormalizeEntity(e0).None? || NormalizeEntity(e1).None?
    ensures r.BadEntities? ==> r == BadEntities(key, e0, e1)
    ensures !r.BadEntities? ==>
      (EmitsOutput(r) <==> NormalizeFields(NormalizeEntity(e0).value) != NormalizeFields(NormalizeEntity(e1).value))
    ensures r.NotEqual? ==>
      r.fields0 == NormalizeFields(NormalizeEntity(e0).value) && r.fields1 == NormalizeFields(NormalizeEntity(e1).value)
    ensures !r.DuplicateEntities? && !r.MissingInOneDb? && !r.IgnoredProberData?
  {
    match (NormalizeEntity(e0), NormalizeEntity(e1))
    case (Some(f0), Some(f1)) =>
      var n0 := NormalizeFields(f0);
      var n1 := NormalizeFields(f1);
      if n0 == n1 then Matched else NotEqual(key, n0, n1)
    case _ => BadEntities(key, e0, e1)
  }

  /** The decision for the entities grouped under `key`. */
  function ProcessElement(key: string, entities: seq<Entity>, ctx: Context): (r: Result<Outcome, Failure>)
    ensures r.Ok? ==> |entities| > 0 && r.value.counterKey == CounterKey(entities[0])
    ensures r == Err(EmptyGroup) <==> |entities| == 0
  {
    if |entities| == 0 then Err(EmptyGroup)
    else
      var counterKey := CounterKey(entities[0]);
      if |entities| > 2 then Ok(Outcome(counterKey, DuplicateEntities(key, |entities|)))
      else if |entities| == 1 then
        var prober :- Probe(entities[0], ctx);
        if prober then Ok(Outcome(counterKey, IgnoredProberData))
        else Ok(Outcome(counterKey, MissingInOneDb(key, UnmatchedDetail(entities[0]))))
      else
        var skip :- BothProbers(entities[0], entities[1], ctx);
        if skip then Ok(Outcome(counterKey, IgnoredProberData))
        else Ok(Outcome(counterKey, ComparePair(key, entities[0], entities[1])))
  }

  /** The output line for a duplicate report. */
  function DuplicateLine(r: Report): string
    requires r.DuplicateEntities?
  {
    LogText.DuplicateEntityLine(r.key, r.count)
  }

  /** More than two entities under one key: a duplicate report whose line
      carries the entity count, decided before any prober check,
      normalisation or comparison, so it depends on nothing but the key, the
      group size and the class of the first entity. */
  lemma DuplicateGroupReported(key: string, g: seq<Entity>, h: seq<Entity>, ctx: Context, ctx': Context)
    requires |g| > 2
    requires |h| == |g| && CounterKey(h[0]) == CounterKey(g[0])
    ensures ProcessElement(key, g, ctx).Ok?
    ensures ProcessElement(key, g, ctx).value.report == DuplicateEntities(key, |g|)
    ensures LogText.ReadEntityCount(DuplicateLine(ProcessElement(key, g, ctx).value.report)) == Some(|g|)
    ensures ProcessElement(key, g, ctx) == ProcessElement(key, h, ctx')
  {
    LogText.DuplicateLineRoundTrip(key, |g|);
  }

  /** A single entity is reported missing in one database unless it is
      prober data, in which case nothing is emitted; a poll message is shown
      whole, anything else by its key. */
  lemma SingleEntityOutcome(key: string, e: Entity, ctx: Context)
    ensures var r := ProcessElement(key, [e], ctx);
      && (r.Err? <==> Probe(e, ctx).Err?)
      && (r.Ok? && r.value.report == IgnoredProberData <==> Probe(e, ctx) == Ok(true))
      && (r.Ok? && r.value.report.MissingInOneDb? <==> Probe(e, ctx) == Ok(false))
      && (r.Ok? && r.value.report.MissingInOneDb? ==>
            r.value.report.key == key && (r.value.report.detail.WholeEntity? <==> e.PollMessage?))
  {
  }

  /** A pair is skipped exactly when both entities are prober data, and the
      group fails exactly when the short-circuit recognition throws. */
  lemma PairSkippedIffBothProbers(key: string, e0: Entity, e1: Entity, ctx: Context)
    ensures var r := ProcessElement(key, [e0, e1], ctx);
      r.Ok? && r.value.report == IgnoredProberData
      <==> Probe(e0, ctx) == Ok(true) && Probe(e1, ctx) == Ok(true)
    ensures ProcessElement(key, [e0, e1], ctx).Err? <==> BothProbers(e0, e1, ctx).Err?
  {
  }

  /** A pair with only one prober entity is still normalised and compared;
      since the second entity is examined only after the first proves to be
      prober data, a non-prober first entity shields the second's exception. */
  lemma PairComparedUnlessBothProbers(key: string, e0: Entity, e1: Entity, ctx: Context)
    requires Probe(e0, ctx) == Ok(false) || (Probe(e0, ctx) == Ok(true) && Probe(e1, ctx) == Ok(false))
    ensures ProcessElement(key, [e0, e1], ctx) == Ok(Outcome(CounterKey(e0), ComparePair(key, e0, e1)))
  {
  }

  /** For a compared pair: a failed normalisation gives exactly a
      bad-entities report, and otherwise a line is emitted exactly when the
      normalised field maps differ. */
  lemma ComparedPairOutcome(key: string, e0: Entity, e1: Entity, ctx: Context)
    requires BothProbers(e0, e1, ctx) == Ok(false)
    ensures var r := ProcessElement(key, [e0, e1], ctx);
      && r.Ok?
      && (r.value.report.BadEntities? <==> NormalizeEntity(e0).None? || NormalizeEntity(e1).None?)
      && (NormalizeEntity(e0).Some? && NormalizeEntity(e1).Some? ==>
            (EmitsOutput(r.value.report)
             <==> NormalizeFields(NormalizeEntity(e0).value) != NormalizeFields(NormalizeEntity(e1).value)))
  {
  }

  /** Whether a compared pair emits a line does not depend on the order of
      the two entities. */
  lemma ComparePairSymmetric(key: string, e0: Entity, e1: Entity)
    ensures EmitsOutput(ComparePair(key, e0, e1)) <==> EmitsOutput(ComparePair(key, e1, e0))
    ensures ComparePair(key, e0, e1).BadEntities? <==> ComparePair(key, e1, e0).BadEntities?
  {
  }

  /** Two entities whose normalised field maps differ only in one field that
      holds an empty collection in one and null in the other are not
      reported. */
  lemma EmptyCollectionVersusNullMatches(key: string, e0: Entity, e1: Entity, m: FieldMap, field: string, v: Value)
    requires IsEmptyCollection(v)
    requires NormalizeEntity(e0) == Some(m[field := v]) && NormalizeEntity(e1) == Some(m[field := Null])
    ensures ComparePair(key, e0, e1) == Matched
  {
    EmptyCollectionMatchesNull(m, field, v);
  }

  /** A group of one or two entities whose checked attributes are all
      present never fails; neither does a group of more than two. */
  lemma WellFormedGroupNeverFails(key: string, g: seq<Entity>, ctx: Context)
    requires |g| > 0
    requires forall i :: 0 <= i < |g| && i < 2 ==> WellFormed(g[i], ctx.ignored)
    ensures ProcessElement(key, g, ctx).Ok?
  {
    WellFormedNeverThrows(g[0], ctx.env, ctx.ignored);
    if |g| > 1 {
      WellFormedNeverThrows(g[1], ctx.env, ctx.ignored);
    }
  }

  /** Every poll-message class shares one counter key, which no other
      modelled class uses; every other modelled class has its own key, so a
      billing `OneTime` and a poll-message `OneTime` are counted apart. */
  lemma CounterKeyIff(a: Entity, b: Entity)
    requires !a.OtherEntity? && !b.OtherEntity?
    ensures CounterKey(a) == CounterKey(b) <==> (a.PollMessage? && b.PollMessage?) || SameClass(a, b)
  {
  }

  /** Both poll-message classes use the key `PollMessage`, while the billing
      `OneTime` class keeps its simple name, which equals that of the
      poll-message `OneTime` class. */
  lemma PollMessageCounterKeyExample(r: Option<string>, f: FieldMap)
    ensures CounterKey(PollMessage(PollOneTime, r, f)) == "PollMessage"
    ensures CounterKey(PollMessage(PollAutorenew, r, f)) == "PollMessage"
    ensures CounterKey(BillingEvent(BillingOneTime, r, f)) == "OneTime"
    ensures SimpleName(BillingEvent(BillingOneTime, r, f)) == SimpleName(PollMessage(PollOneTime, r, f))
  {
  }
}

=== FILE: entities.dfy ===
/** The persisted entities that the database comparison loads, one closed
    datatype in place of the Java class hierarchy below `SqlEntity`. Only the
    attributes that the comparison reads are kept. A Java null is
    `Wrappers.None`. */
module Entities {
  import opened Wrappers
  import opened FieldValues

  /** Concrete `EppResource` classes. */
  datatype ResourceKind = DomainBase | ContactResource | HostResource

  /** Concrete `BillingEvent` classes. */
  datatype BillingKind = BillingOneTime | BillingRecurring | BillingCancellation

  /** Concrete `PollMessage` classes. */
  datatype PollKind = PollOneTime | PollAutorenew

  /** The domain snapshot a `DomainHistory` may carry; only its name is read. */
  datatype DomainContent = DomainContent(domainName: Option<string>)

  /** Concrete `HistoryEntry` classes with the repo id of their resource. */
  datatype HistoryKind =
    | DomainHistory(domainContent: Option<DomainContent>, domainRepoId: Option<string>)
    | ContactHistory(contactRepoId: Option<string>)
    | HostHistory(hostRepoId: Option<string>)

  /** One entity as loaded from either database.
      The reflective normalisation of EPP resources and history entries
      (`normalizeEppResource`, `normalizeHistoryEntry`) is not modelled step by
      step: `normalized` holds the diffable field map of the normalised entity,
      or `None` when normalisation throws. Every other entity is left as it is
      by normalisation, so it carries its diffable field map directly. */
  datatype Entity =
    | EppResource(resourceKind: ResourceKind, currentSponsorRegistrarId: Option<string>,
                  normalized: Option<FieldMap>)
    | HistoryEntry(history: HistoryKind, registrarId: Option<string>, reason: Option<string>,
                   normalized: Option<FieldMap>)
    | BillingEvent(billingKind: BillingKind, registrarId: Option<string>, fields: FieldMap)
    | PollMessage(pollKind: PollKind, registrarId: Option<string>, fields: FieldMap)
    | Registrar(registrarId: Option<string>, fields: FieldMap)
    | OtherEntity(simpleName: string, fields: FieldMap)

  /** `getClass().getSimpleName()`: nested classes such as `BillingEvent.OneTime`
      and `PollMessage.OneTime` report only their own name. */
  function SimpleName(e: Entity): string {
    match e
    case EppResource(k, _, _) =>
      (match k
       case DomainBase => "DomainBase"
       case ContactResource => "ContactResource"
       case HostResource => "HostResource")
    case HistoryEntry(h, _, _, _) =>
      (match h
       case DomainHistory(_, _) => "DomainHistory"
       case ContactHistory(_) => "ContactHistory"
       case HostHistory(_) => "HostHistory")
    case BillingEvent(k, _, _) =>
      (match k
       case BillingOneTime => "OneTime"
       case BillingRecurring => "Recurring"
       case BillingCancellation => "Cancellation")
    case PollMessage(k, _, _) =>
      (match k
       case PollOneTime => "OneTime"
       case PollAutorenew => "Autorenew")
    case Registrar(_, _) => "Registrar"
    case OtherEntity(name, _) => name
  }

  /** Two entities are instances of the same Java class. */
  predicate SameClass(a: Entity, b: Entity) {
    match (a, b)
    case (EppResource(k, _, _), EppResource(l, _, _)) => k == l
    case (HistoryEntry(h, _, _, _), HistoryEntry(i, _, _, _)) =>
      (h.DomainHistory? && i.DomainHistory?) || (h.ContactHistory? && i.ContactHistory?)
      || (h.HostHistory? && i.HostHistory?)
    case (BillingEvent(k, _, _), BillingEvent(l, _, _)) => k == l
    case (PollMessage(k, _, _), PollMessage(l, _, _)) => k == l
    case (Registrar(_, _), Registrar(_, _)) => true
    case (OtherEntity(n, _), OtherEntity(m, _)) => n == m
    case _ => false
  }

  /** The diffable field map of `normalizeEntity(e)`, or `None` when
      normalisation throws; only EPP resources and history entries are
      touched by normalisation, so only they can fail. */
  function NormalizeEntity(e: Entity): (r: Option<FieldMap>)
    ensures r.None? ==> e.EppResource? || e.HistoryEntry?
    ensures !(e.EppResource? || e.HistoryEntry?) ==> r == Some(e.fields)
  {
    if e.EppResource? || e.HistoryEntry? then e.normalized else Some(e.fields)
  }
}

=== FILE: field_values.dfy ===
/** The diffable field map of a persisted entity and the normaliser that
    erases trivial differences between the Datastore and the SQL copy of the
    same entity before the two maps are compared
    (`ValidateSqlUtils.DiffableFieldNormalizer`). */
module FieldValues {

  /** A value in a diffable field map. Numbers and booleans stay what they
      are and every other leaf has been turned into its string form, so the
      leaves are `Str`, `Num` and `Bool`; `Null` is Java's null.
      A child object is a `LinkedHashMap` from field name to value (`Child`);
      any other `Map` (a map-valued field) is a `PlainMap`. */
  datatype Value =
    | Null
    | Str(s: string)
    | Num(n: int)
    | Bool(b: bool)
    | ListOf(items: seq<Value>)
    | SetOf(elems: set<Value>)
    | Child(fields: map<string, Value>)
    | PlainMap(entries: map<Value, Value>)

  /** Field name to field value, as produced for one entity. */
  type FieldMap = map<string, Value>

  /** The field of an address that holds its street lines. */
  const StreetKey: string := "street"

  /** A Java `Collection` (list or set) with no elements. Maps are not
      collections, so an empty map is not one. */
  predicate IsEmptyCollection(v: Value) {
    (v.ListOf? && |v.items| == 0) || (v.SetOf? && |v.elems| == 0)
  }

  /** A street line that is dropped: null or the empty string. */
  predicate IsBlank(v: Value) {
    v == Null || v == Str("")
  }

  /** The elements of `s` that are not blank, in their original order. */
  function DropBlanks(s: seq<Value>): (r: seq<Value>)
    ensures forall x :: x in r <==> x in s && !IsBlank(x)
    ensures |r| <= |s|
    ensures (forall i :: 0 <= i < |s| ==> !IsBlank(s[i])) ==> r == s
  {
    if |s| == 0 then []
    else (if IsBlank(s[0]) then [] else [s[0]]) + DropBlanks(s[1..])
  }

  /** The normaliser applied to one entry `key -> v` of a field map:
      an empty collection becomes null whatever its key; otherwise a `street`
      list loses its blank lines; otherwise a child object with at least
      one (String) field name is normalised field by field; anything else is
      returned as it is. Lists, sets and plain maps are not entered. */
  function Normalize(key: string, v: Value): (r: Value)
    ensures r == Null <==> v == Null || IsEmptyCollection(v)
    ensures v.Child? ==> r.Child? && r.fields.Keys == v.fields.Keys
    ensures key == StreetKey && v.ListOf? && |v.items| > 0 ==> r == ListOf(DropBlanks(v.items))
    ensures key != StreetKey && v.ListOf? && |v.items| > 0 ==> r == v
    ensures v.Child? && v.fields == map[] ==> r == v
    ensures v.Child? ==> forall k | k in v.fields :: r.fields[k] == Normalize(k, v.fields[k])
    ensures !(v.ListOf? || v.Child?) && !IsEmptyCollection(v) ==> r == v
    decreases v
  {
    if IsEmptyCollection(v) then Null
    else if key == StreetKey && v.ListOf? then ListOf(DropBlanks(v.items))
    else if v.Child? && v.fields != map[] then
      Child(map k | k in v.fields :: Normalize(k, v.fields[k]))
    else v
  }

  /** The normaliser applied to every entry of a field map
      (`Maps.transformEntries(fields, new DiffableFieldNormalizer())`). */
  function NormalizeFields(m: FieldMap): (r: FieldMap)
    ensures r.Keys == m.Keys
    ensures forall k | k in m :: r[k] == Normalize(k, m[k])
    ensures forall k | k in m :: r[k] == Null <==> m[k] == Null || IsEmptyCollection(m[k])
  {
    map k | k in m :: Normalize(k, m[k])
  }

  /** `v`, stored under `key`, is left unchanged by the normaliser: no empty
      collection, no blank street line, and the same holds for every field of
      a child object. */
  ghost predicate IsNormalized(key: string, v: Value)
    decreases v
  {
    && !IsEmptyCollection(v)
    && (key == StreetKey && v.ListOf? ==> forall i :: 0 <= i < |v.items| ==> !IsBlank(v.items[i]))
    && (v.Child? ==> forall k | k in v.fields :: IsNormalized(k, v.fields[k]))
  }

  /** Somewhere the normaliser reaches, `v` holds a non-empty street list made
      only of blank lines: normalising turns it into an empty list, and
      normalising again would turn that into null. */
  ghost predicate HasBlankOnlyStreet(key: string, v: Value)
    decreases v
  {
    if IsEmptyCollection(v) then false
    else if key == StreetKey && v.ListOf? then DropBlanks(v.items) == []
    else v.Child? && exists k | k in v.fields :: HasBlankOnlyStreet(k, v.fields[k])
  }

  /** Dropping blanks distributes over concatenation, so the kept lines stay
      in their original order. */
  lemma {:induction false} DropBlanksAppend(a: seq<Value>, b: seq<Value>)
    ensures DropBlanks(a + b) == DropBlanks(a) + DropBlanks(b)
    decreases |a|
  {
    if |a| == 0 {
      assert a + b == b;
    } else {
      assert (a + b)[1..] == a[1..] + b;
      DropBlanksAppend(a[1..], b);
    }
  }

  /** The fixed points of the normaliser are exactly the normalised values. */
  lemma {:induction false} NormalizeFixpointIff(key: string, v: Value)
    ensures Normalize(key, v) == v <==> IsNormalized(key, v)
    decreases v
  {
    if v.Child? {
      forall k | k in v.fields {
        NormalizeFixpointIff(k, v.fields[k]);
      }
      if v.fields != map[] && !IsEmptyCollection(v) {
        var r := Normalize(key, v);
        if IsNormalized(key, v) {
          assert r.fields == v.fields;
        } else {
          var k :| k in v.fields && !IsNormalized(k, v.fields[k]);
          assert r.fields[k] != v.fields[k];
        }
      }
    } else if key == StreetKey && v.ListOf? && !IsEmptyCollection(v) {
      if !IsNormalized(key, v) {
        var i :| 0 <= i < |v.items| && IsBlank(v.items[i]);
        assert v.items[i] in v.items;
        assert v.items[i] !in DropBlanks(v.items);
      }
    }
  }

  /** One pass of the normaliser leaves a normalised value unless it created
      an empty street list from one holding only blank lines. */
  lemma {:induction false} NormalizeOnceIff(key: string, v: Value)
    ensures IsNormalized(key, Normalize(key, v)) <==> !HasBlankOnlyStreet(key, v)
    decreases v
  {
    if IsEmptyCollection(v) {
    } else if key == StreetKey && v.ListOf? {
      var r := DropBlanks(v.items);
      if r != [] {
        forall i | 0 <= i < |r| ensures !IsBlank(r[i]) {
          assert r[i] in r;
        }
      }
    } else if v.Child? {
      forall k | k in v.fields {
        NormalizeOnceIff(k, v.fields[k]);
      }
      if v.fields == map[] {
        assert !HasBlankOnlyStreet(key, v);
      } else {
        var r := Normalize(key, v);
        if HasBlankOnlyStreet(key, v) {
          var k :| k in v.fields && HasBlankOnlyStreet(k, v.fields[k]);
          assert r.fields[k] == Normalize(k, v.fields[k]);
        }
      }
    }
  }

  /** Normalisation is idempotent exactly on values without a blank-only
      street list: on `["", null]` under `street` the first pass yields an
      empty list and the second pass yields null. */
  lemma NormalizeIdempotentIff(key: string, v: Value)
    ensures Normalize(key, Normalize(key, v)) == Normalize(key, v)
            <==> !HasBlankOnlyStreet(key, v)
  {
    NormalizeFixpointIff(key, Normalize(key, v));
    NormalizeOnceIff(key, v);
  }

  /** The concrete witness of non-idempotence. */
  lemma BlankStreetNotIdempotent()
    ensures Normalize(StreetKey, ListOf([Str(""), Null])) == ListOf([])
    ensures Normalize(StreetKey, Normalize(StreetKey, ListOf([Str(""), Null]))) == Null
  {
  }

  /** Two street lists normalise to the same value exactly when both are
      empty, or both are non-empty and have the same non-blank lines in the
      same order. In particular a list of blank lines does not match an empty
      list or null. */
  lemma StreetListsMatchIff(a: seq<Value>, b: seq<Value>)
    ensures Normalize(StreetKey, ListOf(a)) == Normalize(StreetKey, ListOf(b))
            <==> (|a| == 0 <==> |b| == 0) && DropBlanks(a) == DropBlanks(b)
  {
  }

  /** An empty collection and null in the same field of two maps normalise to
      the same map, whatever the field is called. */
  lemma EmptyCollectionMatchesNull(m: FieldMap, key: string, v: Value)
    requires IsEmptyCollection(v)
    ensures NormalizeFields(m[key := v]) == NormalizeFields(m[key := Null])
  {
    var a := NormalizeFields(m[key := v]);
    var b := NormalizeFields(m[key := Null]);
    assert forall k | k in a :: a[k] == b[k];
  }

  /** The top-level field map goes through the same transformer as the
      fields of a non-empty child object. */
  lemma TopLevelLikeChild(m: FieldMap)
    requires m != map[]
    ensures Normalize("", Child(m)) == Child(NormalizeFields(m))
  {
  }

  /** The normalised field map is a fixed point exactly when every field is
      normalised. */
  lemma NormalizeFieldsFixpointIff(m: FieldMap)
    ensures NormalizeFields(m) == m <==> forall k | k in m :: IsNormalized(k, m[k])
  {
    forall k | k in m {
      NormalizeFixpointIff(k, m[k]);
    }
    if forall k | k in m :: IsNormalized(k, m[k]) {
      assert forall k | k in m :: NormalizeFields(m)[k] == m[k];
    }
  }
}

=== FILE: log_text.dfy ===
/** The text of the duplicate-entities report line
    (`CompareSqlEntity.duplicateEntityLog`, `"%s: %d entities."`), and a
    reader that recovers the entity count from it. */
module LogText {
  import opened Wrappers

  predicate IsDigit(c: char) {
    '0' <= c <= '9'
  }

  predicate AllDigits(s: string) {
    forall i :: 0 <= i < |s| ==> IsDigit(s[i])
  }

  function DigitChar(d: nat): (c: char)
    requires d < 10
    ensures IsDigit(c)
  {
    ['0', '1', '2', '3', '4', '5', '6', '7', '8', '9'][d]
  }

  function DigitValue(c: char): (d: nat)
    requires IsDigit(c)
    ensures d < 10
  {
    (c as int - '0' as int) as nat
  }

  /** `%d` of a non-negative int: decimal digits, no sign, no padding. */
  function Decimal(n: nat): (s: string)
    ensures |s| > 0 && AllDigits(s)
    ensures s[0] == '0' <==> n == 0
  {
    if n < 10 then [DigitChar(n)] else Decimal(n / 10) + [DigitChar(n % 10)]
  }

  /** The number written by a string of decimal digits. */
  function ParseDecimal(s: string): nat
    requires AllDigits(s)
  {
    if |s| == 0 then 0 else 10 * ParseDecimal(s[..|s| - 1]) + DigitValue(s[|s| - 1])
  }

  lemma DigitRoundTrip(d: nat)
    requires d < 10
    ensures DigitValue(DigitChar(d)) == d
  {
  }

  /** Reading the decimal text of a number gives the number back. */
  lemma {:induction false} DecimalRoundTrip(n: nat)
    ensures ParseDecimal(Decimal(n)) == n
  {
    var s := Decimal(n);
    DigitRoundTrip(n % 10);
    if n >= 10 {
      DecimalRoundTrip(n / 10);
      assert s[..|s| - 1] == Decimal(n / 10);
    }
  }

  const EntitiesSuffix: string := " entities.\n"

  /** One output line of a duplicate group: `key: count entities.` and the
      newline that the caller appends. */
  function DuplicateEntityLine(key: string, count: nat): (line: string)
    ensures |line| > |key| + |EntitiesSuffix| + 2
    ensures line[..|key|] == key
    ensures line[|line| - |EntitiesSuffix|..] == EntitiesSuffix
  {
    key + ": " + Decimal(count) + EntitiesSuffix
  }

  /** The longest run of digits at the end of `s`. */
  function TrailingDigits(s: string): (d: string)
    ensures |d| <= |s| && AllDigits(d) && d == s[|s| - |d|..]
    ensures |d| < |s| ==> !IsDigit(s[|s| - |d| - 1])
  {
    if |s| == 0 || !IsDigit(s[|s| - 1]) then []
    else TrailingDigits(s[..|s| - 1]) + [s[|s| - 1]]
  }

  /** The entity count written in a duplicate line, if `line` is one. */
  function ReadEntityCount(line: string): Option<nat> {
    if |line| < |EntitiesSuffix| || line[|line| - |EntitiesSuffix|..] != EntitiesSuffix then None
    else
      var digits := TrailingDigits(line[..|line| - |EntitiesSuffix|]);
      if digits == [] then None else Some(ParseDecimal(digits))
  }

  /** Digits that follow a non-digit are exactly the trailing digits. */
  lemma {:induction false} TrailingDigitsAfter(p: string, d: string)
    requires |p| > 0 && !IsDigit(p[|p| - 1]) && AllDigits(d)
    ensures TrailingDigits(p + d) == d
    decreases |d|
  {
    if |d| == 0 {
      assert p + d == p;
    } else {
      assert (p + d)[..|p + d| - 1] == p + d[..|d| - 1];
      TrailingDigitsAfter(p, d[..|d| - 1]);
      assert d == d[..|d| - 1] + [d[|d| - 1]];
    }
  }

  /** The duplicate line carries the entity count: it can be read back from
      the line whatever the key is, even a key that ends in digits. */
  lemma DuplicateLineRoundTrip(key: string, count: nat)
    ensures ReadEntityCount(DuplicateEntityLine(key, count)) == Some(count)
  {
    var line := DuplicateEntityLine(key, count);
    var body := key + ": " + Decimal(count);
    assert line == body + EntitiesSuffix;
    assert line[..|line| - |EntitiesSuffix|] == body;
    assert body == (key + ": ") + Decimal(count);
    TrailingDigitsAfter(key + ": ", Decimal(count));
    DecimalRoundTrip(count);
  }
}

=== FILE: prober_examples.dfy ===
/** Worked repo ids for the prober repo-id rule of domain histories. */
module ProberExamples {
  import opened Wrappers
  import opened ProberRules

  lemma SuffixAfterThirdChar(s: string)
    requires |s| > 3 && s[3] == '-' && s[0] != '-' && s[1] != '-' && s[2] != '-'
    ensures RepoIdSuffix(s) == s[4..]
  {
    assert s[..3] == [s[0], s[1], s[2]];
    assert IndexOf(s, '-') == 3;
  }

  lemma ProberSuffix(t: string)
    requires t == "IQANYT"
    ensures t[..2] in ProberCells && t[2..] in ProberTypes
  {
    assert t[..2] == "IQ" && t[2..] == "ANYT";
  }

  /** A repo id whose suffix after the dash is a prober cell and type. */
  lemma ProberRepoIdExample()
    ensures IsProberRepoId("4F2-IQANYT") == Ok(true)
  {
    SuffixAfterThirdChar("4F2-IQANYT");
    ProberSuffix("IQANYT");
  }

  /** A repo id without a dash is read whole. */
  lemma DashlessRepoIdExample()
    ensures IsProberRepoId("LGCANARY") == Ok(true)
  {
    assert '-' !in "LGCANARY";
    assert "LGCANARY"[..2] == "LG" && "LGCANARY"[2..] == "CANARY";
  }

  /** Only the text after the first dash counts. */
  lemma FirstDashRepoIdExample()
    ensures IsProberRepoId("1-2-IQANYT") == Ok(false)
  {
    var s := "1-2-IQANYT";
    assert s[..1] == "1" && s[1] == '-';
    assert IndexOf(s, '-') == 1;
    assert RepoIdSuffix(s) == "2-IQANYT";
    assert "2-IQANYT"[..2] == "2-";
  }

  lemma UnknownCell(t: string)
    requires |t| >= 2 && t[0] == 'Q'
    ensures t[..2] !in ProberCells
  {
  }

  /** The cell must be one of the prober cells. */
  lemma UnknownCellRepoIdExample()
    ensures IsProberRepoId("4F2-Q9ANYT") == Ok(false)
  {
    SuffixAfterThirdChar("4F2-Q9ANYT");
    UnknownCell("Q9ANYT");
  }

  /** A suffix of fewer than two characters throws. */
  lemma ShortRepoIdThrows()
    ensures IsProberRepoId("4F2-I") == Err(StringIndexOutOfBounds)
  {
    SuffixAfterThirdChar("4F2-I");
  }
}

=== FILE: prober_rules.dfy ===
/** Recognition of entities that the comparison must not report
    (`ValidateSqlUtils.isSpecialCaseProberEntity`): data written by the
    prober, whose deletions never reach the SQL database, and placeholder
    registrars that exist only in SQL in production. */
module ProberRules {
  import opened Wrappers
  import opened FieldValues
  import opened Entities

  /** Two-letter cells of the prober's repo-id suffixes (`PROBER_CELLS`). */
  const ProberCells: set<string> := {"IQ", "LG", "TL"}

  /** Repo-id suffix types that follow the cell (`PROBER_TYPES`). */
  const ProberTypes: set<string> := {"ANYT", "ANYTES", "CANARY"}

  const ProberPrefix: string := "prober-"

  /** Prefix of the placeholder registrars that exist only in production SQL. */
  const PlaceholderRegistrarPrefix: string := "prober-wj-"

  /** History reason of the Datastore soft-delete of prober data. */
  const ProberDeletionReason: string := "Deletion of prober data"

  /** Java exceptions the recognition can throw. */
  datatype Exception = NullPointer | StringIndexOutOfBounds

  /** `RegistryEnvironment`; the current one is passed in. */
  datatype Environment = Production | Sandbox | Alpha | Crash | Qa | Local | UnitTest

  /** Repo ids of resources excluded from the comparison
      (`Transforms.IGNORED_DOMAINS`, `IGNORED_CONTACTS`, `IGNORED_HOSTS`). */
  datatype IgnoredResources = IgnoredResources(domains: set<string>, contacts: set<string>, hosts: set<string>)

  /** `s.startsWith(prefix)`, throwing on a null `s`. */
  function StartsWith(s: Option<string>, prefix: string): (r: Result<bool, Exception>)
    ensures r.Err? <==> s.None?
    ensures r == Ok(true) <==> s.Some? && |prefix| <= |s.value| && s.value[..|prefix|] == prefix
  {
    if s.None? then Err(NullPointer) else Ok(prefix <= s.value)
  }

  /** `s.indexOf(c)`: the first position of `c`, or -1. */
  function IndexOf(s: string, c: char): (r: int)
    ensures r == -1 <==> c !in s
    ensures r != -1 ==> 0 <= r < |s| && s[r] == c && c !in s[..r]
  {
    if |s| == 0 then -1
    else if s[0] == c then 0
    else
      var i := IndexOf(s[1..], c);
      if i == -1 then -1
      else
        assert s[..i + 1] == [s[0]] + s[1..][..i];
        i + 1
  }

  /** `repoId.substring(repoId.indexOf('-') + 1)`: the text after the first
      dash, or the whole id when it has none. */
  function RepoIdSuffix(repoId: string): (r: string)
    ensures '-' !in repoId ==> r == repoId
    ensures '-' in repoId ==>
      var cut := |repoId| - |r| - 1;
      0 <= cut && repoId[cut] == '-' && '-' !in repoId[..cut] && repoId[cut + 1..] == r
  {
    repoId[IndexOf(repoId, '-') + 1..]
  }

  /** The repo-id rule for domain histories: the suffix splits into a
      two-letter cell and a type (`substring(0, 2)`, `substring(2)`), which
      throws when the suffix is shorter than two characters. */
  function IsProberRepoId(repoId: string): (r: Result<bool, Exception>)
    ensures r.Err? <==> |RepoIdSuffix(repoId)| < 2
    ensures r == Ok(true) ==> 6 <= |RepoIdSuffix(repoId)| <= 8
  {
    var suffix := RepoIdSuffix(repoId);
    if |suffix| < 2 then Err(StringIndexOutOfBounds)
    else
      var cell := suffix[..2];
      var kind := suffix[2..];
      if kind in ProberTypes then
        TypeLength(kind);
        Ok(cell in ProberCells)
      else Ok(false)
  }

  lemma CellHasTwoLetters(cell: string)
    requires cell in ProberCells
    ensures |cell| == 2
  {
  }

  lemma TypeLength(kind: string)
    requires kind in ProberTypes
    ensures 4 <= |kind| <= 6
  {
  }

  /** A repo id names prober data exactly when its suffix is a prober cell
      followed by a prober type. */
  lemma ProberRepoIdIff(repoId: string)
    ensures IsProberRepoId(repoId) == Ok(true) <==>
      exists cell, kind | cell in ProberCells && kind in ProberTypes :: RepoIdSuffix(repoId) == cell + kind
  {
    var suffix := RepoIdSuffix(repoId);
    if IsProberRepoId(repoId) == Ok(true) {
      var cell, kind := suffix[..2], suffix[2..];
      assert suffix == cell + kind;
      assert cell in ProberCells && kind in ProberTypes;
    }
    if exists cell, kind | cell in ProberCells && kind in ProberTypes :: suffix == cell + kind {
      var cell, kind :| cell in ProberCells && kind in ProberTypes && suffix == cell + kind;
      CellHasTwoLetters(cell);
      assert suffix[..2] == cell;
      assert suffix[2..] == kind;
    }
  }

  /** The domain-name check of a domain history passes without deciding:
      there is no snapshot, or its name is present and lacks `prober-`. */
  predicate NameClearsPrefix(content: Option<DomainContent>) {
    content.Some? ==> content.value.domainName.Some? && !(ProberPrefix <= content.value.domainName.value)
  }

  /** The checks that only history entries of one resource type get. */
  function HistorySpecialCase(h: HistoryKind, ignored: IgnoredResources): (r: Result<bool, Exception>)
    ensures r.Err? ==> h.DomainHistory?
    ensures r.Err? ==>
      (h.domainContent.Some? && h.domainContent.value.domainName.None?)
      || (h.domainRepoId.Some? && |RepoIdSuffix(h.domainRepoId.value)| < 2)
    ensures h.DomainHistory? && h.domainContent.Some? && h.domainContent.value.domainName.None?
            ==> r == Err(NullPointer)
    ensures h.DomainHistory? && NameClearsPrefix(h.domainContent) && h.domainRepoId.None? ==> r == Ok(false)
    ensures (h.DomainHistory? && NameClearsPrefix(h.domainContent) && h.domainRepoId.Some?
             && h.domainRepoId.value !in ignored.domains) ==> r == IsProberRepoId(h.domainRepoId.value)
    ensures (h.DomainHistory? && h.domainRepoId.Some? && h.domainRepoId.value in ignored.domains
             && (h.domainContent.Some? ==> h.domainContent.value.domainName.Some?)) ==> r == Ok(true)
    ensures (h.DomainHistory? && h.domainContent.Some? && h.domainContent.value.domainName.Some?
             && ProberPrefix <= h.domainContent.value.domainName.value) ==> r == Ok(true)
    ensures h.ContactHistory? ==> (r == Ok(true) <==> h.contactRepoId.Some? && h.contactRepoId.value in ignored.contacts)
    ensures h.HostHistory? ==> (r == Ok(true) <==> h.hostRepoId.Some? && h.hostRepoId.value in ignored.hosts)
  {
    match h
    case DomainHistory(content, repoId) =>
      var byName :- if content.Some? then StartsWith(content.value.domainName, ProberPrefix) else Ok(false);
      if byName then Ok(true)
      else if repoId.None? then Ok(false)
      else if repoId.value in ignored.domains then Ok(true)
      else IsProberRepoId(repoId.value)
    case ContactHistory(repoId) => Ok(repoId.Some? && repoId.value in ignored.contacts)
    case HostHistory(repoId) => Ok(repoId.Some? && repoId.value in ignored.hosts)
  }

  /** Whether `e` is prober data or a placeholder registrar, with the checks
      in the order the source makes them, so an exception is thrown only by a
      check that is actually reached. */
  function IsSpecialCaseProberEntity(e: Entity, env: Environment, ignored: IgnoredResources): (r: Result<bool, Exception>)
    ensures r.Err? ==> !WellFormed(e, ignored)
    ensures r.Err? && e.HistoryEntry? && e.registrarId.Some? ==> e.history.DomainHistory?
    ensures e.Registrar? && r == Ok(true) ==> env == Production
    ensures e.OtherEntity? ==> r == Ok(false)
  {
    match e
    case EppResource(_, sponsor, _) => StartsWith(sponsor, ProberPrefix)
    case HistoryEntry(h, registrarId, reason, _) =>
      var byRegistrar :- StartsWith(registrarId, ProberPrefix);
      if byRegistrar || reason == Some(ProberDeletionReason) then Ok(true)
      else HistorySpecialCase(h, ignored)
    case BillingEvent(_, registrarId, _) => StartsWith(registrarId, ProberPrefix)
    case PollMessage(_, registrarId, _) => StartsWith(registrarId, ProberPrefix)
    case Registrar(registrarId, _) =>
      if env == Production then StartsWith(registrarId, PlaceholderRegistrarPrefix) else Ok(false)
    case OtherEntity(_, _) => Ok(false)
  }

  /** The registrar id that the `prober-` prefix rule inspects. */
  function ProberCheckedRegistrarId(e: Entity): Option<string>
    requires e.EppResource? || e.HistoryEntry? || e.BillingEvent? || e.PollMessage?
  {
    if e.EppResource? then e.currentSponsorRegistrarId else e.registrarId
  }

  /** A resource, history entry, billing event or poll message whose
      registrar id starts with `prober-` is prober data. Resources, billing
      events and poll messages are prober data only then, and throw exactly
      when the id is null. */
  lemma ProberRegistrarRule(e: Entity, env: Environment, ignored: IgnoredResources)
    requires e.EppResource? || e.HistoryEntry? || e.BillingEvent? || e.PollMessage?
    ensures StartsWith(ProberCheckedRegistrarId(e), ProberPrefix) == Ok(true)
            ==> IsSpecialCaseProberEntity(e, env, ignored) == Ok(true)
    ensures !e.HistoryEntry? ==>
            IsSpecialCaseProberEntity(e, env, ignored) == StartsWith(ProberCheckedRegistrarId(e), ProberPrefix)
    ensures ProberCheckedRegistrarId(e).None? ==> IsSpecialCaseProberEntity(e, env, ignored).Err?
  {
  }

  /** A history entry is prober data when its registrar id starts with
      `prober-`, or its reason is the prober-deletion reason, or the check
      for its resource type says so; a null registrar id throws first. */
  lemma HistoryEntryRule(h: HistoryKind, registrarId: Option<string>, reason: Option<string>,
                         normalized: Option<FieldMap>, env: Environment, ignored: IgnoredResources)
    ensures var r := IsSpecialCaseProberEntity(HistoryEntry(h, registrarId, reason, normalized), env, ignored);
      && (registrarId.None? ==> r == Err(NullPointer))
      && (registrarId.Some? && reason == Some(ProberDeletionReason) ==> r == Ok(true))
      && (r == Ok(true) <==>
            (registrarId.Some? &&
             (ProberPrefix <= registrarId.value || reason == Some(ProberDeletionReason)
              || HistorySpecialCase(h, ignored) == Ok(true))))
  {
  }

  /** Registrars are special only in production, and only with the
      `prober-wj-` prefix; outside production even a null id is harmless. */
  lemma RegistrarRule(id: Option<string>, fields: FieldMap, env: Environment, ignored: IgnoredResources)
    ensures env != Production ==> IsSpecialCaseProberEntity(Registrar(id, fields), env, ignored) == Ok(false)
    ensures env == Production ==>
      (IsSpecialCaseProberEntity(Registrar(id, fields), env, ignored) == Ok(true)
       <==> id.Some? && PlaceholderRegistrarPrefix <= id.value)
    ensures IsSpecialCaseProberEntity(Registrar(id, fields), env, ignored).Err?
            <==> env == Production && id.None?
  {
  }

  /** The general `prober-` prefix does not make a registrar special, while
      it does make a poll message with the same registrar id prober data. */
  lemma ProberPrefixAloneNotEnoughForRegistrar(fields: FieldMap, ignored: IgnoredResources)
    ensures IsSpecialCaseProberEntity(Registrar(Some("prober-ab"), fields), Production, ignored) == Ok(false)
    ensures IsSpecialCaseProberEntity(PollMessage(PollOneTime, Some("prober-ab"), fields), Production, ignored)
            == Ok(true)
    ensures IsSpecialCaseProberEntity(Registrar(Some("prober-wj-01"), fields), Production, ignored) == Ok(true)
  {
    assert !(PlaceholderRegistrarPrefix <= "prober-ab");
  }

  /** A domain history that reaches the repo-id rule, with or without a
      snapshot, is decided by it alone. */
  lemma DomainRepoIdRule(registrarId: string, reason: Option<string>, content: Option<DomainContent>,
                         repoId: string, normalized: Option<FieldMap>, env: Environment, ignored: IgnoredResources)
    requires !(ProberPrefix <= registrarId) && reason != Some(ProberDeletionReason)
    requires NameClearsPrefix(content)
    requires repoId !in ignored.domains
    ensures IsSpecialCaseProberEntity(
              HistoryEntry(DomainHistory(content, Some(repoId)), Some(registrarId), reason, normalized), env, ignored)
            == IsProberRepoId(repoId)
  {
  }

  /** Every string attribute that some check may read is non-null (even
      where, as for a registrar outside production, no check reads it), and a
      domain history repo id outside the ignored set has at least two
      characters after its first dash. */
  predicate WellFormed(e: Entity, ignored: IgnoredResources) {
    match e
    case EppResource(_, sponsor, _) => sponsor.Some?
    case HistoryEntry(h, registrarId, _, _) =>
      && registrarId.Some?
      && (h.DomainHistory? && h.domainContent.Some? ==> h.domainContent.value.domainName.Some?)
      && (h.DomainHistory? && h.domainRepoId.Some? && h.domainRepoId.value !in ignored.domains
          ==> |RepoIdSuffix(h.domainRepoId.value)| >= 2)
    case BillingEvent(_, registrarId, _) => registrarId.Some?
    case PollMessage(_, registrarId, _) => registrarId.Some?
    case Registrar(registrarId, _) => registrarId.Some?
    case OtherEntity(_, _) => true
  }

  /** An entity whose checked attributes are all present, and whose domain
      repo-id suffix is long enough, never makes the recognition throw. */
  lemma WellFormedNeverThrows(e: Entity, env: Environment, ignored: IgnoredResources)
    requires WellFormed(e, ignored)
    ensures IsSpecialCaseProberEntity(e, env, ignored).Ok?
  {
  }
}

=== FILE: wrappers.dfy ===
/** Failure-compatible helper types shared by the model.
    `Option` stands for a Java reference that may be null; `Result` for a
    computation that may end in a Java exception. */
module Wrappers {

  /** A possibly-null Java reference: `None` is null. */
  datatype Option<+T> = None | Some(value: T)

  /** A value, or the exception that the Java code would throw instead. */
  datatype Result<+T, +E> = Ok(value: T) | Err(error: E) {

    predicate IsFailure() {
      Err?
    }

    function PropagateFailure<U>(): Result<U, E>
      requires Err?
    {
      Err(error)
    }

    function Extract(): T
      requires Ok?
    {
      value
    }
  }
}
